=== FILE: README.md ===
# Equation Surf — a Dafny model of the quiz logic

Equation Surf is a browser game. It asks the player to solve 2×2 linear
systems, scores each answer, plots both lines and shows a worked
substitution-method solution. Almost all of it is React UI. This project
models the small layer of pure logic and state transitions underneath:

- **App shell** (`App.tsx`, module `App`). This is the Start / Playing / GameOver mode machine. It holds the score that the quiz hands to the final screen. The four callbacks of the three screens are modelled as clicks that take effect only while their screen is shown.
- **Quiz screen** (`components/GameScreen.tsx`, module `GameScreen`).
  - The equation formatter.
  - Answer submission: parsing is an abstract `string -> Option<real>`, and the check is strict, within 0.01.
  - Advancing to the next question, and the progress bar.
  - The screen's event gating: the form exists only while there is no feedback, and the next button only while there is.
  - Whole sessions as traces of events, with the list of scored submissions.
- **Ranking** (`components/GameOverScreen.tsx`, module `GameOverScreen`). A threshold lookup from the final score to one of four tiers.
- **Plot data** (`components/EquationGraph.tsx`, module `EquationGraph`).
  - The sampler over the integers from ⌊x̂−5⌋ to ⌈x̂+5⌉, where x̂ is the stored solution's x. Arithmetic is over the reals.
  - Its special case for vertical lines.
  - The legend's own formatter, whose zero-coefficient policy differs from the quiz screen's, together with its `' + -'` rewrite.
- **Step-by-step panel** (`components/StepByStepSolution.tsx`, module `StepByStepSolution`).
  - The isolate, divide and substitute lines, with their sign rules.
  - The echoed solution: the panel prints the stored solution and never recomputes it.

Supporting modules:

- `Types` holds the records of `types.ts`. The source declares equation coefficients as JavaScript numbers. The model restricts them to integers, as a modelling choice (see "## Left out"). Solutions are reals.
- `Text` renders integers the way `${n}` does. It parses them back and splits strings on a separator, so that every formatter can be shown to be decodable.
- `Wrappers` holds `Option`.

The step-by-step panel's local formatter is character for character the quiz
screen's (`components/StepByStepSolution.tsx:12-17` against
`components/GameScreen.tsx:12-17`). The model therefore defines it once, as
`GameScreen.FormatEquation`, and the panel uses that.

Some behaviours of the code worth noting:

- The final screen's button calls `startGame` (`App.tsx:31`), so GameOver leads to Playing with a zero score. It does not lead back to Start.
- A vertical line (b = 0) is not always plotted as a gap. It gets the point y = 0 at a sampled integer x with a·x = c, if there is one, and a gap at every other sample. With no integer root in the sampled range (2x + 0y = 3, say), the whole line is a gap.
- Only the graph's legend omits zero-coefficient terms. The quiz screen and the step panel's restatement print `0x` and `+ 0y`. The step panel's substitution line prints `- 0y` for a zero b₂.
- An empty question list is not refused. The quiz screen just shows its loading text, and no control reacts.

## Model

| member | source | states |
|---|---|---|
| GameScreen.FormatRoundTrip | components/GameScreen.tsx:12-17 | the rendered equation reads back to the same three coefficients under a decoder that accepts only the canonical forms: `x` for 1, `-x` for −1 (`1x` and `-1x` are refused), `ax` otherwise (`0x` included), sign `+` iff b ≥ 0 (so `+ 0y`, never `- 0y`), magnitude \|b\| with 1 shown as `y` (`1y` refused) |
| GameScreen.FormatInjective | components/GameScreen.tsx:12-17 | two different equations never render to the same text, so `+ 0y` still tells a zero y coefficient apart |
| GameScreen.XTermRoundTrip | components/GameScreen.tsx:13 | the x term contains no space and determines a (1 → `x`, −1 → `-x`, other → `${a}x`), read back by a decoder that refuses `1x` and `-1x` |
| GameScreen.YTermRoundTrip | components/GameScreen.tsx:15 | the y term contains no space and determines \|b\| (1 → `y`), read back by a decoder that refuses `1y` |
| GameScreen.Begin | components/GameScreen.tsx:20-28 | a new screen holds exactly the loaded question list and satisfies the session invariant with index 0, score 0, empty inputs and no feedback |
| GameScreen.Submit | components/GameScreen.tsx:30-54 | no current question, or an input that does not parse: nothing changes; otherwise correct iff both differences lie strictly inside (−0.01, 0.01); correct adds exactly 100 and sets `correct`, incorrect sets `incorrect` and keeps the score; the index invariant is kept |
| GameScreen.BoundaryIsIncorrect | components/GameScreen.tsx:44-46 | a difference of exactly 0.01 in either coordinate is graded incorrect |
| GameScreen.Next | components/GameScreen.tsx:56-64 | at the last question (index+1 ≥ length) the game ends reporting the current score; otherwise the index goes up by one, both inputs become "" and the feedback null, and the index stays in range |
| GameScreen.NextLabel | components/GameScreen.tsx:147 | the button reads "Ver Ranking" exactly when pressing it ends the game |
| GameScreen.Progress | components/GameScreen.tsx:71 | the bar is between 0 (exclusive) and 100 percent, and full exactly on the last question |
| GameScreen.ProgressSteps | components/GameScreen.tsx:71 | the bar shows one question's share, 100 / length, on the first question, and each advance to a next question adds exactly one more share |
| GameScreen.Handle | components/GameScreen.tsx:66-148 | a scored submission happens only while feedback is null and leaves feedback set, on the current in-range question, adding 100 or 0; every other event keeps the score and either keeps index and feedback or advances past a question that has feedback; an empty list ignores all events; only the back button leaves the screen. Each wired control does its job: typing while the form is shown sets exactly that input, submitting acts as `Submit` and reports its grade, the next button acts as `Next` (ending the game iff `Next` does), and the back button always leaves. An event whose control is not on screen (typing or submitting while feedback is shown, next while the form is shown) leaves the session exactly as it was |
| GameScreen.RunScore | components/GameScreen.tsx:48-64 | over any event sequence the session stays valid, the score is the starting score plus 100 × the number of correct submissions (so it never decreases), and a finished game reports that score |
| GameScreen.RunGradesAscending | components/GameScreen.tsx:56-90 | scored submissions answer strictly increasing question indices within the list, so each question is scored at most once |
| GameScreen.SessionScore | components/GameScreen.tsx:20-64 | a whole session from the first question ends with score = 100 × correct answers, between 0 and 100 × number of questions |
| GameOverScreen.TierOf | components/GameOverScreen.tsx:9-19 | the tier of every integer score is the one indexed by how many of the thresholds 400, 800, 1200 it reaches |
| GameOverScreen.GetRanking | components/GameOverScreen.tsx:9-19 | "Lenda do Surfe!" iff score ≥ 1200, "Surfista Profissional" iff 800 ≤ score < 1200, "Amador Talentoso" iff 400 ≤ score < 800, "Iniciante na Prancha" iff score < 400 (negatives included) |
| GameOverScreen.TierMonotone | components/GameOverScreen.tsx:9-19 | a higher score never earns a lower tier |
| GameOverScreen.TitlesDistinct | components/GameOverScreen.tsx:11-17 | the four tiers have four different titles |
| EquationGraph.Ceil | components/EquationGraph.tsx:18 | `Math.ceil`: the least integer not below its argument |
| EquationGraph.LineY | components/EquationGraph.tsx:24-35 | for b ≠ 0 the sampled y satisfies a·x + b·y = c; for b = 0 there is a point (with y = 0) iff a ≠ 0 and a·x = c, and a gap otherwise |
| EquationGraph.GenerateData | components/EquationGraph.tsx:12-40 | the rows are the consecutive integers from ⌊x̂−5⌋ to ⌈x̂+5⌉ ascending, each with both lines' y computed independently |
| EquationGraph.SampleWindow | components/EquationGraph.tsx:17-20 | the range covers x̂ ± 5 and has 11 rows when x̂ is whole, 12 otherwise |
| EquationGraph.PlotHitsSolution | components/EquationGraph.tsx:24-25 | if the stored solution lies on a non-vertical line and has a whole x, the sampled line passes exactly through it inside the range |
| EquationGraph.PlusOnlyAsSign | components/EquationGraph.tsx:44-48 | in the legend a `+` appears only as the sign of a positive y coefficient, followed by a space and an unsigned magnitude |
| EquationGraph.RewriteNeverFires | components/EquationGraph.tsx:45-49 | `' + -'` never occurs in the legend text, so the `replace` returns it unchanged |
| EquationGraph.FormatRoundTrip | components/EquationGraph.tsx:43-50 | the legend reads back to the same equation under a decoder that refuses `0x` and a zero y term: the x term is omitted only for a = 0 and the y term only for b = 0, the sign is `+` only for b > 0, and the magnitude is \|b\| |
| EquationGraph.FormattersAgreeIff | components/EquationGraph.tsx:43-50 | the legend and the quiz-screen formatter print the same text iff a ≠ 0 and b ≠ 0 |
| StepByStepSolution.IsolateSign | components/StepByStepSolution.tsx:33-34 | the printed sign and \|b₁\| together stand for −b₁, and the sign is the formatter's sign for −b₁ (`-` for b₁ > 0, `+` otherwise, so `+ 0y` for zero) |
| StepByStepSolution.SubstituteSign | components/StepByStepSolution.tsx:39 | the printed sign and \|b₂\| stand for b₂; the sign differs from the formatter's exactly when b₂ = 0 |
| StepByStepSolution.DivideLine | components/StepByStepSolution.tsx:34 | the divisor is a₁ printed as it is, with no guard: for a₁ = 0 the line ends in ` / 0` |
| StepByStepSolution.IsolateRoundTrip | components/StepByStepSolution.tsx:33 | the isolate line reads back as a₁·x = c₁ + k·y with k = −b₁, coefficients printed raw (`1x`, `1y`), under a decoder that refuses `- 0y` |
| StepByStepSolution.MovedTermRoundTrip | components/StepByStepSolution.tsx:33-34 | the moved y term, sign and magnitude, reads back to −b₁ with zero written `+ 0` |
| StepByStepSolution.AddedTermRoundTrip | components/StepByStepSolution.tsx:39 | the substituted y term reads back to b₂ with zero written `- 0` |
| StepByStepSolution.DivideRoundTrip | components/StepByStepSolution.tsx:34 | the divide line reads back as x = (c₁ + k·y) / a₁ with k = −b₁ and the divisor a₁ exactly as given, zero included |
| StepByStepSolution.SubstituteRoundTrip | components/StepByStepSolution.tsx:39 | the substitution line reads back to (a₂, c₁, −b₁, a₁, b₂, c₂): equation II with x replaced by the divide line's expression, its y term signed `+` only for b₂ > 0 (so `- 0y` for zero) |
| StepByStepSolution.IsolationIsEquivalent | components/StepByStepSolution.tsx:33 | a point satisfies equation I iff it satisfies the printed isolate line |
| StepByStepSolution.MovingTermAcross | components/StepByStepSolution.tsx:33 | a₁x + b₁y = c₁ iff a₁x = c₁ + (−b₁)y |
| StepByStepSolution.RestatementReadsBack | components/StepByStepSolution.tsx:12-27 | step 1 shows both equations with the quiz screen's formatter, so each reads back to its equation |
| StepByStepSolution.ResultsShowSolution | components/StepByStepSolution.tsx:44-49 | step 4 shows the stored y and step 5 the stored x: for any rendering that tells values apart, two panels' y results agree iff their stored y values do, and the same for x |
| StepByStepSolution.SolutionIsEchoed | components/StepByStepSolution.tsx:44-49 | the y and x results depend only on the stored solution, and steps 1–3 depend only on the equations |
| App.StartGame | App.tsx:12-15 | from any mode: Playing with score 0 |
| App.EndGame | App.tsx:17-20 | GameOver with the reported score |
| App.RestartGame | App.tsx:22-24 | Start, with the stored score untouched |
| App.Dispatch | App.tsx:26-35 | Start→Playing (score 0) on start; Playing→GameOver with the reported score; Playing→Start on the back button; GameOver→Playing (score 0) on play-again; every click not wired in the current mode leaves the whole state unchanged; these four are the only mode changes, and GameOver never goes to Start |
| App.ReplayKeepsScoreOnResults | App.tsx:12-35 | the property "score is 0 outside GameOver" survives every click sequence |
| App.ReachableScore | App.tsx:9-35 | from the initial state, the stored score is 0 in every mode except GameOver |
| App.PlayToRanking | App.tsx:17-31 | a finished quiz reaches GameOver with score 100 × correct answers, at most 100 per question, so a game of fewer than four questions always ranks "Iniciante na Prancha" |

## Left out

- Rendering is not modelled. This covers JSX, Tailwind classes, recharts drawing, the reference dot and the feedback texts (`components/EquationGraph.tsx:53-75` and the JSX of every screen). It is presentation only.
- `components/StartScreen.tsx` is not modelled. It is static UI whose only effect is the `onStart` callback, modelled as `App.StartClicked`.
- `services/questionBank` (`getGameQuestions`) is not part of this model. The question list is an input of `GameScreen.Begin`. No solution is assumed to satisfy its equations, except where a lemma requires it explicitly (`EquationGraph.PlotHitsSolution`).
- React scheduling is not modelled: `useState` batching, `useCallback` stale closures and the `useEffect` load. Each handler is one atomic transition, and the load is `GameScreen.Begin`.
- `alert()` is not modelled. A rejected submission is just "no state change", with the outcome `InvalidInput`.
- GameScreen.Submit / GameScreen.BoundaryIsIncorrect: the tolerance test is over exact reals. In IEEE-754 doubles a typed value exactly 0.01 away from the stored one may be graded either way: `2.01 - 2` falls just below 0.01 and is graded correct, while `2 - 1.99` falls just above it and is graded incorrect.
- GameScreen.Submit: `parseFloat` is an abstract `string -> Option<real>` parameter. Its lexical rules are not modelled. Neither are the non-finite values it can return for input such as `Infinity`, which the source would grade rather than reject.
- EquationGraph.LineY: the reals stand in for IEEE-754 doubles, so rounding error is abstracted away. The source's float test `x === c / a` is modelled by the exact test a·x = c.
- EquationGraph.GenerateData: works over reals rather than floats, as above.
- GameScreen.Progress: real division stands in for the float percentage.
- StepByStepSolution.Narrate: JavaScript's number-to-text conversion of the stored solution is an abstract `show` parameter.
- Equation coefficients and the constant are modelled as integers only. Non-integer coefficients and JavaScript's exponent notation for integers of 10²¹ and more are not rendered.

=== FILE: app.dfy ===
/** The application shell (App.tsx): which screen is up and the score handed
    from the quiz to the final screen. */
module App {
  import opened Wrappers
  import opened Types
  import GameScreen
  import GameOverScreen

  datatype AppState = AppState(mode: GameState, score: int)

  /** `useState(GameState.Start)` and `useState(0)`. */
  const Initial: AppState := AppState(Start, 0)

  /** `startGame`: a fresh game with a zero score, from any mode. */
  function StartGame(app: AppState): (r: AppState)
    ensures r.mode == Playing && r.score == 0
  {
    AppState(Playing, 0)
  }

  /** `endGame(finalScore)`: show the final screen with the reported score. */
  function EndGame(app: AppState, finalScore: int): (r: AppState)
    ensures r.mode == GameOver && r.score == finalScore
  {
    AppState(GameOver, finalScore)
  }

  /** `restartGame`: back to the start screen; the stored score is kept. */
  function RestartGame(app: AppState): (r: AppState)
    ensures r.mode == Start && r.score == app.score
  {
    app.(mode := Start)
  }

  datatype Screen = StartView | QuizView | ResultsView

  /** `renderContent`: exactly one screen per mode. */
  function Render(mode: GameState): Screen {
    match mode
    case Playing => QuizView
    case GameOver => ResultsView
    case Start => StartView
  }

  /** The callbacks the screens can fire: the start screen's `onStart`, the
      quiz screen's `onGameEnd` and `onRestart` (its back button), and the
      final screen's `onRestart` (its play-again button). */
  datatype Click = StartClicked | QuizEnded(finalScore: int) | QuizBack | PlayAgain

  /** The callbacks the screen of each mode carries. */
  predicate Wired(mode: GameState, click: Click) {
    || (mode == Start && click == StartClicked)
    || (mode == Playing && (click.QuizEnded? || click == QuizBack))
    || (mode == GameOver && click == PlayAgain)
  }

  /** A callback takes effect only when the screen that owns it is up. The
      play-again button is wired to `startGame`, so it leads to a new game,
      not to the start screen. */
  function Dispatch(app: AppState, click: Click): (r: AppState)
    ensures app.mode == Start && click == StartClicked ==> r == AppState(Playing, 0)
    ensures app.mode == Playing && click.QuizEnded? ==> r == AppState(GameOver, click.finalScore)
    ensures app.mode == Playing && click == QuizBack ==> r == AppState(Start, app.score)
    ensures app.mode == GameOver && click == PlayAgain ==> r == AppState(Playing, 0)
    ensures r != app ==>
      || (app.mode == Start && r.mode == Playing)
      || (app.mode == Playing && r.mode == GameOver)
      || (app.mode == Playing && r.mode == Start)
      || (app.mode == GameOver && r.mode == Playing)
    ensures app.mode == GameOver ==> r.mode != Start
    ensures !Wired(app.mode, click) ==> r == app
  {
    match (Render(app.mode), click)
    case (StartView, StartClicked) => StartGame(app)
    case (QuizView, QuizEnded(s)) => EndGame(app, s)
    case (QuizView, QuizBack) => RestartGame(app)
    case (ResultsView, PlayAgain) => StartGame(app)
    case _ => app
  }

  /** The application after a sequence of clicks. */
  function Replay(app: AppState, clicks: seq<Click>): AppState
    decreases |clicks|
  {
    if |clicks| == 0 then app else Replay(Dispatch(app, clicks[0]), clicks[1..])
  }

  /** Outside the final screen the stored score is always zero: the start
      screen is reached only from the initial state or from a game, which
      holds zero, so `restartGame` keeping the score never shows. */
  predicate ScoreOnlyOnResults(app: AppState) {
    app.mode != GameOver ==> app.score == 0
  }

  lemma {:induction false} ReplayKeepsScoreOnResults(app: AppState, clicks: seq<Click>)
    requires ScoreOnlyOnResults(app)
    ensures ScoreOnlyOnResults(Replay(app, clicks))
    decreases |clicks|
  {
    if |clicks| > 0 {
      ReplayKeepsScoreOnResults(Dispatch(app, clicks[0]), clicks[1..]);
    }
  }

  lemma ReachableScore(clicks: seq<Click>)
    ensures ScoreOnlyOnResults(Replay(Initial, clicks))
  {
    ReplayKeepsScoreOnResults(Initial, clicks);
  }

  /** A finished quiz carried to the final screen: the score shown is 100
      per correct answer, at most 100 per question, and with fewer than four
      questions nobody gets past the first tier. */
  lemma PlayToRanking(questions: seq<Question>, evs: seq<GameScreen.Event>, parse: string -> Option<real>)
    requires GameScreen.Run(GameScreen.Begin(questions), evs, parse).exit.Finished?
    ensures var t := GameScreen.Run(GameScreen.Begin(questions), evs, parse);
      var app := Dispatch(StartGame(Initial), QuizEnded(t.exit.finalScore));
      && app.mode == GameOver
      && app.score == GameScreen.PointsPerCorrect * GameScreen.CorrectCount(t.grades)
      && 0 <= app.score <= GameScreen.PointsPerCorrect * |questions|
      && (|questions| < 4 ==> GameOverScreen.TierOf(app.score) == GameOverScreen.Beginner)
  {
    GameScreen.SessionScore(questions, evs, parse);
  }
}

=== FILE: equation_graph.dfy ===
/** The plot under the feedback (components/EquationGraph.tsx): the table of
    sample points handed to the chart and the legend's equation text. Chart
    drawing itself is not modelled. Arithmetic is over the reals, so the
    rounding of floating-point numbers is abstracted away. */
module EquationGraph {
  import opened Wrappers
  import opened Types
  import Text
  import GameScreen

  // ---------------------------------------------------------------------------
  // Sample points
  // ---------------------------------------------------------------------------

  /** `Math.ceil`. */
  function Ceil(r: real): (n: int)
    ensures r <= n as real < r + 1.0
  {
    -((-r).Floor)
  }

  /** First sampled x: `Math.floor(solX - 5)`. */
  function XMin(solX: real): int {
    (solX - 5.0).Floor
  }

  /** Last sampled x: `Math.ceil(solX + 5)`. */
  function XMax(solX: real): int {
    Ceil(solX + 5.0)
  }

  /** The plotted y of one line at an integer x, `None` for `null`. A line
      with `b = 0` is vertical: it gets the single point y = 0 where x equals
      `c / a`, and a gap everywhere else. With `a = 0` as well, `c / a` is an
      infinity or NaN in JavaScript and never equals an integer x. */
  function LineY(eq: Equation, x: int): (y: Option<real>)
    ensures eq.b != 0 ==> y.Some? && eq.a as real * x as real + eq.b as real * y.value == eq.c as real
    ensures eq.b == 0 ==> (y.Some? <==> eq.a != 0 && eq.a * x == eq.c)
    ensures eq.b == 0 && y.Some? ==> y.value == 0.0
  {
    if eq.b != 0 then
      var y := (eq.c as real - eq.a as real * x as real) / eq.b as real;
      assert y * eq.b as real == eq.c as real - eq.a as real * x as real;
      Some(y)
    else if eq.a == 0 then
      None
    else
      QuotientTest(eq.a, eq.c, x);
      if x as real == eq.c as real / eq.a as real then Some(0.0) else None
  }

  lemma QuotientTest(a: int, c: int, x: int)
    requires a != 0
    ensures x as real == c as real / a as real <==> a * x == c
  {
  }

  /** One row of the chart data: x with the y of each line. */
  datatype Sample = Sample(x: int, line1: Option<real>, line2: Option<real>)

  /** `generateData`: one row per integer from `XMin` to `XMax`, ascending,
      each line evaluated on its own. */
  method GenerateData(eq1: Equation, eq2: Equation, sol: Solution) returns (data: seq<Sample>)
    ensures |data| == XMax(sol.x) - XMin(sol.x) + 1
    ensures forall i :: 0 <= i < |data| ==> data[i].x == XMin(sol.x) + i
    ensures forall i :: 0 <= i < |data| ==>
      data[i].line1 == LineY(eq1, data[i].x) && data[i].line2 == LineY(eq2, data[i].x)
  {
    var xMin := XMin(sol.x);
    var xMax := XMax(sol.x);
    data := [];
    var x := xMin;
    while x <= xMax
      invariant xMin <= x <= xMax + 1
      invariant |data| == x - xMin
      invariant forall i :: 0 <= i < |data| ==> data[i].x == xMin + i
      invariant forall i :: 0 <= i < |data| ==>
        data[i].line1 == LineY(eq1, data[i].x) && data[i].line2 == LineY(eq2, data[i].x)
    {
      data := data + [Sample(x, LineY(eq1, x), LineY(eq2, x))];
      x := x + 1;
    }
  }

  /** The sampled range covers five units either side of the solution and
      holds 11 integers when the solution's x is whole, 12 otherwise. */
  lemma SampleWindow(solX: real)
    ensures XMin(solX) as real <= solX - 5.0 && solX + 5.0 <= XMax(solX) as real
    ensures XMax(solX) - XMin(solX) + 1 == if solX == solX.Floor as real then 11 else 12
  {
  }

  /** When the stored solution lies on a non-vertical line and has a whole x,
      the plotted line passes exactly through it at a sampled x. */
  lemma PlotHitsSolution(eq: Equation, sol: Solution)
    requires OnLine(eq, sol) && eq.b != 0
    requires sol.x == sol.x.Floor as real
    ensures XMin(sol.x) <= sol.x.Floor <= XMax(sol.x)
    ensures LineY(eq, sol.x.Floor) == Some(sol.y)
  {
    SampleWindow(sol.x);
    var y := LineY(eq, sol.x.Floor).value;
    assert eq.b as real * y == eq.b as real * sol.y;
  }

  // ---------------------------------------------------------------------------
  // Legend text: the graph's own formatter
  // ---------------------------------------------------------------------------

  /** The x term: omitted for a zero coefficient, otherwise as on the quiz
      screen. */
  function XTerm(a: int): string {
    if a != 0 then GameScreen.XTerm(a) else ""
  }

  /** The y term with its sign: omitted for a zero coefficient; `+` only for
      a positive one; the magnitude printed as `|b|`. */
  function YPart(b: int): string {
    if b != 0 then [if b > 0 then '+' else '-'] + " " + GameScreen.YTerm(Abs(b)) else ""
  }

  /** The text before the final `' + -'` to `' - '` rewrite. */
  function RawText(eq: Equation): string {
    XTerm(eq.a) + " " + YPart(eq.b) + " = " + Text.IntToString(eq.c)
  }

  /** The local `formatEquation`. */
  function FormatEquation(eq: Equation): string {
    Text.ReplaceFirst(RawText(eq), " + -", " - ")
  }

  /** A `+` in the raw text only ever sits right after the x term, as the
      sign of a positive y coefficient, and is followed by a space and the
      unsigned magnitude. */
  lemma PlusOnlyAsSign(eq: Equation, i: int)
    requires 0 <= i < |RawText(eq)| && RawText(eq)[i] == '+'
    ensures i == |XTerm(eq.a)| + 1 && eq.b > 0
    ensures i + 2 < |RawText(eq)| && RawText(eq)[i + 2] != '-'
  {
  }

  /** The `' + -'` rewrite has nothing to act on: the y term is built from
      `|b|`, so the legend is exactly the raw text. */
  lemma RewriteNeverFires(eq: Equation)
    ensures forall k :: !Text.OccursAt(RawText(eq), " + -", k)
    ensures FormatEquation(eq) == RawText(eq)
  {
    var raw := RawText(eq);
    forall k: nat | Text.OccursAt(raw, " + -", k)
      ensures false
    {
      var w := raw[k..k + 4];
      assert w == " + -";
      assert raw[k + 1] == w[1] == '+';
      PlusOnlyAsSign(eq, k + 1);
    }
  }

  /** Reads the legend's x term back: empty for zero, never `0x`. */
  function DecodeXTerm(t: string): Option<int> {
    if t == "" then Some(0)
    else
      match GameScreen.DecodeXTerm(t)
      case Some(a) => if a == 0 then None else Some(a)
      case None => None
  }

  /** Reads an equation back from the legend text, accepting only what the
      legend can print: no `0x`, and a y term only for a non-zero coefficient. */
  function DecodeEquation(s: string): Option<Equation> {
    var t := Text.Split(s, ' ');
    if |t| == 4 && t[1] == "" && t[2] == "=" then
      match (DecodeXTerm(t[0]), Text.ParseInt(t[3]))
      case (Some(a), Some(c)) => Some(Equation(a, 0, c))
      case _ => None
    else if |t| == 5 && t[3] == "=" then
      match (DecodeXTerm(t[0]), GameScreen.DecodeYTerm(t[2]), Text.ParseInt(t[4]))
      case (Some(a), Some(m), Some(c)) =>
        if m == 0 then None
        else if t[1] == "+" then Some(Equation(a, m, c))
        else if t[1] == "-" then Some(Equation(a, -(m as int), c))
        else None
      case _ => None
    else None
  }

  /** The legend's space-separated tokens: four when the y term is dropped
      (the empty token between the two spaces stands for it), five otherwise. */
  function Tokens(eq: Equation): seq<string> {
    if eq.b == 0 then [XTerm(eq.a), "", "=", Text.IntToString(eq.c)]
    else [XTerm(eq.a), [if eq.b > 0 then '+' else '-'], GameScreen.YTerm(Abs(eq.b)), "=", Text.IntToString(eq.c)]
  }

  lemma RawTokens(eq: Equation)
    ensures RawText(eq) == Text.Join(Tokens(eq), ' ')
  {
    var ts := Tokens(eq);
    var n := |ts|;
    assert Text.Join(ts[n - 1..], ' ') == ts[n - 1];
    assert Text.Join(ts[n - 2..], ' ') == ts[n - 2] + " " + ts[n - 1] by {
      assert ts[n - 2..][1..] == ts[n - 1..];
    }
    assert Text.Join(ts[n - 3..], ' ') == ts[n - 3] + " " + Text.Join(ts[n - 2..], ' ') by {
      assert ts[n - 3..][1..] == ts[n - 2..];
    }
    if n == 5 {
      assert Text.Join(ts[1..], ' ') == ts[1] + " " + Text.Join(ts[2..], ' ') by {
        assert ts[1..][1..] == ts[2..];
      }
    }
  }

  lemma TokensHaveNoSpace(eq: Equation)
    ensures forall i :: 0 <= i < |Tokens(eq)| ==> ' ' !in Tokens(eq)[i]
  {
  }

  /** Reading back the legend recovers the equation: dropping a zero term
      loses nothing. */
  lemma {:induction false} FormatRoundTrip(eq: Equation)
    ensures DecodeEquation(FormatEquation(eq)) == Some(eq)
  {
    RewriteNeverFires(eq);
    RawTokens(eq);
    TokensHaveNoSpace(eq);
    Text.SplitJoin(Tokens(eq), ' ');
    GameScreen.XTermRoundTrip(eq.a);
    GameScreen.YTermRoundTrip(Abs(eq.b));
    Text.IntRoundTrip(eq.c);
  }

  /** The graph's legend and the quiz screen's formatter print the same text
      exactly when both coefficients are non-zero: with `a = 0` the quiz
      screen prints `0x` where the legend prints nothing, and with `b = 0` it
      prints `+ 0y` where the legend prints nothing. */
  lemma FormattersAgreeIff(eq: Equation)
    ensures GameScreen.FormatEquation(eq) == FormatEquation(eq) <==> eq.a != 0 && eq.b != 0
  {
    RewriteNeverFires(eq);
    var game := GameScreen.FormatEquation(eq);
    var raw := RawText(eq);
    if eq.a == 0 {
      assert game[0] == '0';
      assert raw[0] == ' ';
    } else if eq.b == 0 {
      var x := XTerm(eq.a);
      assert game[|x| + 1] == '+';
      assert raw[|x| + 1] == ' ';
    } else {
      assert YPart(eq.b) == [GameScreen.YSign(eq.b)] + " " + GameScreen.YTerm(Abs(eq.b));
    }
  }
}

=== FILE: game_over_screen.dfy ===
/** The final screen (components/GameOverScreen.tsx): the score-to-tier
    lookup `getRanking`. */
module GameOverScreen {

  datatype Tier = Beginner | TalentedAmateur | Professional | Legend

  /** What the screen shows for a tier. */
  datatype Ranking = Ranking(title: string, message: string, color: string)

  /** The score a player must reach to enter each tier above the first,
      lowest first. */
  const Thresholds: seq<int> := [400, 800, 1200]

  /** The tiers in ascending order. */
  const Tiers: seq<Tier> := [Beginner, TalentedAmateur, Professional, Legend]

  /** How many of `ts` the score reaches: an independent statement of the
      lookup. */
  function Reached(ts: seq<int>, score: int): (n: nat)
    ensures n <= |ts|
  {
    if |ts| == 0 then 0 else (if ts[0] <= score then 1 else 0) + Reached(ts[1..], score)
  }

  /** Position of a tier in `Tiers`. */
  function Level(t: Tier): (n: nat)
    ensures n < |Tiers| && Tiers[n] == t
  {
    match t
    case Beginner => 0
    case TalentedAmateur => 1
    case Professional => 2
    case Legend => 3
  }

  /** The threshold chain of `getRanking`, defined for every integer score. */
  function TierOf(score: int): (t: Tier)
    ensures t == Tiers[Reached(Thresholds, score)]
  {
    assert Reached([1200], score) == if score >= 1200 then 1 else 0 by {
      assert [1200][1..] == [];
    }
    assert Reached([800, 1200], score) == (if score >= 800 then 1 else 0) + Reached([1200], score) by {
      assert [800, 1200][1..] == [1200];
    }
    assert Thresholds[1..] == [800, 1200];
    if score >= 1200 then Legend
    else if score >= 800 then Professional
    else if score >= 400 then TalentedAmateur
    else Beginner
  }

  function Describe(t: Tier): Ranking {
    match t
    case Legend => Ranking("Lenda do Surfe!", "Você dominou todas as ondas com perfeição! Um verdadeiro mestre da matemática!", "text-yellow-400")
    case Professional => Ranking("Surfista Profissional", "Você pegou ótimas ondas e mostrou grande habilidade. Continue assim!", "text-sky-500")
    case TalentedAmateur => Ranking("Amador Talentoso", "Você tem potencial! Com mais prática, você chegará ao topo.", "text-green-500")
    case Beginner => Ranking("Iniciante na Prancha", "Não desista! Toda lenda começou pegando as primeiras marolas.", "text-gray-600")
  }

  /** `getRanking`. */
  function GetRanking(score: int): (r: Ranking)
    ensures r.title == "Lenda do Surfe!" <==> 1200 <= score
    ensures r.title == "Surfista Profissional" <==> 800 <= score < 1200
    ensures r.title == "Amador Talentoso" <==> 400 <= score < 800
    ensures r.title == "Iniciante na Prancha" <==> score < 400
  {
    Describe(TierOf(score))
  }

  /** A higher score never earns a lower tier. */
  lemma TierMonotone(s1: int, s2: int)
    requires s1 <= s2
    ensures Level(TierOf(s1)) <= Level(TierOf(s2))
  {
  }

  /** Each tier has its own title, so the title tells the tier. */
  lemma TitlesDistinct(t1: Tier, t2: Tier)
    ensures Describe(t1).title == Describe(t2).title ==> t1 == t2
  {
  }
}

=== FILE: game_screen.dfy ===
/** The quiz screen (components/GameScreen.tsx): its equation formatter and
    the per-session state machine driven by the form, the "next" button and
    the "back to start" button. Each React handler is one atomic transition. */
module GameScreen {
  import opened Wrappers
  import opened Types
  import Text

  // ---------------------------------------------------------------------------
  // Equation formatter (also used verbatim by the step-by-step panel)
  // ---------------------------------------------------------------------------

  /** The x term: `x` for 1, `-x` for -1, otherwise the coefficient then `x`
      (so a zero coefficient still prints as `0x`). */
  function XTerm(a: int): string {
    if a == 1 then "x" else if a == -1 then "-x" else Text.IntToString(a) + "x"
  }

  /** The sign before the y term: `+` for every non-negative coefficient. */
  function YSign(b: int): char {
    if b >= 0 then '+' else '-'
  }

  /** The y term for a coefficient of magnitude `m`: `y` for 1, else `my`. */
  function YTerm(m: nat): string {
    if m == 1 then "y" else Text.NatToString(m) + "y"
  }

  /** `formatEquation`: `<x-term> <sign> <y-term> = <c>`. */
  function FormatEquation(eq: Equation): string {
    XTerm(eq.a) + " " + [YSign(eq.b)] + " " + YTerm(Abs(eq.b)) + " = " + Text.IntToString(eq.c)
  }

  /** Reads an x term back, accepting only the canonical spellings: `x` and
      `-x` for ±1, and a written coefficient for every other value. */
  function DecodeXTerm(t: string): Option<int> {
    if t == "x" then Some(1)
    else if t == "-x" then Some(-1)
    else if |t| > 0 && t[|t| - 1] == 'x' then
      match Text.ParseInt(t[..|t| - 1])
      case Some(a) => if a == 1 || a == -1 then None else Some(a)
      case None => None
    else None
  }

  /** Reads a y term back, accepting only `y` for magnitude 1. */
  function DecodeYTerm(t: string): Option<nat> {
    if t == "y" then Some(1)
    else if |t| > 0 && t[|t| - 1] == 'y' then
      match Text.ParseNat(t[..|t| - 1])
      case Some(m) => if m == 1 then None else Some(m)
      case None => None
    else None
  }

  /** Reads an equation back from the text `FormatEquation` shows. A zero y
      coefficient is accepted only with the sign `+`. */
  function DecodeEquation(s: string): Option<Equation> {
    var t := Text.Split(s, ' ');
    if |t| != 5 || t[3] != "=" then None
    else
      match (DecodeXTerm(t[0]), DecodeYTerm(t[2]), Text.ParseInt(t[4]))
      case (Some(a), Some(m), Some(c)) =>
        if t[1] == "+" then Some(Equation(a, m, c))
        else if t[1] == "-" && m != 0 then Some(Equation(a, -(m as int), c))
        else None
      case _ => None
  }

  lemma IntTextHasNoSpace(n: int)
    ensures ' ' !in Text.IntToString(n)
  {
  }

  lemma NatTextHasNoSpace(n: nat)
    ensures ' ' !in Text.NatToString(n)
  {
  }

  lemma XTermRoundTrip(a: int)
    ensures ' ' !in XTerm(a)
    ensures DecodeXTerm(XTerm(a)) == Some(a)
  {
    if a != 1 && a != -1 {
      var u := Text.IntToString(a);
      var t := u + "x";
      IntTextHasNoSpace(a);
      assert t[..|t| - 1] == u;
      Text.IntRoundTrip(a);
    }
  }

  lemma YTermRoundTrip(m: nat)
    ensures ' ' !in YTerm(m)
    ensures DecodeYTerm(YTerm(m)) == Some(m)
  {
    if m != 1 {
      var u := Text.NatToString(m);
      var t := u + "y";
      NatTextHasNoSpace(m);
      assert t[..|t| - 1] == u;
      Text.NatRoundTrip(m);
    }
  }

  /** The formatted text is five space-separated tokens. */
  lemma FormatTokens(eq: Equation)
    ensures FormatEquation(eq)
         == Text.Join([XTerm(eq.a), [YSign(eq.b)], YTerm(Abs(eq.b)), "=", Text.IntToString(eq.c)], ' ')
  {
    var ts := [XTerm(eq.a), [YSign(eq.b)], YTerm(Abs(eq.b)), "=", Text.IntToString(eq.c)];
    assert Text.Join(ts[4..], ' ') == ts[4];
    assert Text.Join(ts[3..], ' ') == ts[3] + " " + ts[4] by { assert ts[3..][1..] == ts[4..]; }
    assert Text.Join(ts[2..], ' ') == ts[2] + " " + Text.Join(ts[3..], ' ') by { assert ts[2..][1..] == ts[3..]; }
    assert Text.Join(ts[1..], ' ') == ts[1] + " " + Text.Join(ts[2..], ' ') by { assert ts[1..][1..] == ts[2..]; }
  }

  /** Reading back the shown equation recovers all three coefficients. */
  lemma {:induction false} FormatRoundTrip(eq: Equation)
    ensures DecodeEquation(FormatEquation(eq)) == Some(eq)
  {
    var ts := [XTerm(eq.a), [YSign(eq.b)], YTerm(Abs(eq.b)), "=", Text.IntToString(eq.c)];
    FormatTokens(eq);
    XTermRoundTrip(eq.a);
    YTermRoundTrip(Abs(eq.b));
    IntTextHasNoSpace(eq.c);
    Text.IntRoundTrip(eq.c);
    Text.SplitJoin(ts, ' ');
  }

  /** Two different equations never render to the same text (so `+ 0y`
      keeps a zero y coefficient visible and distinguishable). */
  lemma FormatInjective(e1: Equation, e2: Equation)
    ensures FormatEquation(e1) == FormatEquation(e2) ==> e1 == e2
  {
    FormatRoundTrip(e1);
    FormatRoundTrip(e2);
  }

  // ---------------------------------------------------------------------------
  // Session state
  // ---------------------------------------------------------------------------

  /** Points awarded for one correct answer. */
  const PointsPerCorrect: int := 100

  /** Half-width of the strict acceptance window around the stored solution. */
  const Tolerance: real := 0.01

  datatype Feedback = Correct | Incorrect

  /** The raw contents of the two number inputs. */
  datatype Answer = Answer(x: string, y: string)

  datatype Session = Session(
    questions: seq<Question>,
    index: nat,
    score: int,
    answer: Answer,
    feedback: Option<Feedback>)

  /** The index addresses a question whenever there is one, and the score is
      never negative. */
  predicate Valid(s: Session) {
    && (if |s.questions| == 0 then s.index == 0 else s.index < |s.questions|)
    && 0 <= s.score
  }

  /** The screen once the question bank has delivered its questions. */
  function Begin(questions: seq<Question>): (s: Session)
    ensures Valid(s)
    ensures s.questions == questions
    ensures s.index == 0 && s.score == 0 && s.feedback == None && s.answer == Answer("", "")
  {
    Session(questions, 0, 0, Answer("", ""), None)
  }

  function CurrentQuestion(s: Session): Option<Question> {
    if s.index < |s.questions| then Some(s.questions[s.index]) else None
  }

  predicate IsCorrect(x: real, y: real, sol: Solution) {
    RealAbs(x - sol.x) < Tolerance && RealAbs(y - sol.y) < Tolerance
  }

  datatype SubmitOutcome = NoQuestion | InvalidInput | Graded(correct: bool)

  datatype Submission = Submission(state: Session, outcome: SubmitOutcome)

  /** `handleAnswerSubmit`. `parse` stands for `parseFloat`, with `None` for
      `NaN`. Without a current question, or with an unreadable input, nothing
      changes (the alert is the only effect of the latter). */
  function Submit(s: Session, parse: string -> Option<real>): (r: Submission)
    ensures r.outcome.NoQuestion? <==> s.index >= |s.questions|
    ensures r.outcome.InvalidInput?
        <==> s.index < |s.questions| && (parse(s.answer.x).None? || parse(s.answer.y).None?)
    ensures !r.outcome.Graded? ==> r.state == s
    ensures r.outcome.Graded? ==>
      var sol := s.questions[s.index].solution;
      var x := parse(s.answer.x).value;
      var y := parse(s.answer.y).value;
      (r.outcome.correct <==> -Tolerance < x - sol.x < Tolerance && -Tolerance < y - sol.y < Tolerance)
    ensures r.outcome == Graded(true)
        ==> r.state == s.(score := s.score + PointsPerCorrect, feedback := Some(Correct))
    ensures r.outcome == Graded(false) ==> r.state == s.(feedback := Some(Incorrect))
    ensures Valid(s) ==> Valid(r.state)
  {
    match CurrentQuestion(s)
    case None => Submission(s, NoQuestion)
    case Some(q) =>
      match (parse(s.answer.x), parse(s.answer.y))
      case (Some(x), Some(y)) =>
        if IsCorrect(x, y, q.solution) then
          Submission(s.(score := s.score + PointsPerCorrect, feedback := Some(Correct)), Graded(true))
        else
          Submission(s.(feedback := Some(Incorrect)), Graded(false))
      case _ => Submission(s, InvalidInput)
  }

  /** A difference of exactly the tolerance is not accepted. */
  lemma BoundaryIsIncorrect(x: real, y: real, sol: Solution)
    requires RealAbs(x - sol.x) == Tolerance || RealAbs(y - sol.y) == Tolerance
    ensures !IsCorrect(x, y, sol)
  {
  }

  datatype Advance = NextQuestion(state: Session) | GameEnded(finalScore: int)

  /** `handleNextQuestion`: either the next question with cleared inputs and
      feedback, or the end of the game reporting the current score. */
  function Next(s: Session): (r: Advance)
    ensures r.GameEnded? <==> s.index + 1 >= |s.questions|
    ensures r.GameEnded? ==> r.finalScore == s.score
    ensures r.NextQuestion?
        ==> r.state == s.(index := s.index + 1, answer := Answer("", ""), feedback := None)
    ensures r.NextQuestion? && Valid(s) ==> Valid(r.state)
  {
    if s.index + 1 >= |s.questions| then GameEnded(s.score)
    else NextQuestion(s.(index := s.index + 1, answer := Answer("", ""), feedback := None))
  }

  /** The label of the button that calls `Next`. */
  function NextLabel(s: Session): (caption: string)
    ensures caption == "Ver Ranking" <==> Next(s).GameEnded?
  {
    if s.index + 1 >= |s.questions| then "Ver Ranking" else "Próxima Onda"
  }

  /** The progress bar width in percent. */
  function Progress(s: Session): (p: real)
    requires Valid(s) && |s.questions| > 0
    ensures 0.0 < p <= 100.0
    ensures p == 100.0 <==> s.index + 1 == |s.questions|
  {
    var n := |s.questions| as real;
    var done := (s.index + 1) as real;
    assert done <= n;
    assert done / n <= 1.0 by {
      assert done / n * n == done;
    }
    assert done / n == 1.0 ==> done == n by {
      assert done / n * n == done;
    }
    (done / n) * 100.0
  }

  /** The bar starts at one question's share and each advance adds exactly
      one more share, so it shows (index + 1) / length of the full width. */
  lemma ProgressSteps(s: Session)
    requires Valid(s) && |s.questions| > 0
    ensures s.index == 0 ==> Progress(s) == 100.0 / |s.questions| as real
    ensures Next(s).NextQuestion?
        ==> Progress(Next(s).state) == Progress(s) + 100.0 / |s.questions| as real
  {
  }

  // ---------------------------------------------------------------------------
  // User events, gated the way the screen renders its controls
  // ---------------------------------------------------------------------------

  /** What the user can do on this screen. */
  datatype Event = TypeX(text: string) | TypeY(text: string) | SubmitForm | NextClicked | BackClicked

  /** One scored submission: the question it answered and its verdict. */
  datatype Grade = Grade(index: nat, correct: bool)

  datatype Step = Stay(state: Session, grade: Option<Grade>) | Ended(finalScore: int) | Left

  /** True when the screen currently shows a control for `ev`: the form
      (inputs and submit) while there is no feedback, the next button while
      there is, and the back button always. */
  predicate Offered(s: Session, ev: Event) {
    ev == BackClicked
    || (s.feedback.None? && (ev.TypeX? || ev.TypeY? || ev == SubmitForm))
    || (s.feedback.Some? && ev == NextClicked)
  }

  /** One event. While the list is empty only the loading text is shown, so
      nothing reacts; the form (inputs and submit) exists only while there is
      no feedback, the next button only while there is; the back button is in
      the header throughout. */
  function Handle(s: Session, ev: Event, parse: string -> Option<real>): (r: Step)
    ensures r.Stay? && r.grade.Some? ==>
      && s.feedback.None? && r.state.feedback.Some?
      && s.index < |s.questions|
      && r.grade.value.index == s.index && r.state.index == s.index
      && r.state.score == s.score + (if r.grade.value.correct then PointsPerCorrect else 0)
    ensures r.Stay? && r.grade.None? ==>
      && r.state.score == s.score
      && ((r.state.index == s.index && r.state.feedback == s.feedback)
          || (r.state.index == s.index + 1 && s.feedback.Some? && r.state.feedback.None?))
    ensures r.Ended? ==> s.feedback.Some? && s.index + 1 >= |s.questions| && r.finalScore == s.score
    ensures r.Left? ==> ev == BackClicked
    ensures r.Stay? && Valid(s) ==> Valid(r.state)
    ensures |s.questions| == 0 ==> r == Stay(s, None)
    ensures |s.questions| > 0 && s.feedback.None? && ev.TypeX? ==> r == Stay(s.(answer := s.answer.(x := ev.text)), None)
    ensures |s.questions| > 0 && s.feedback.None? && ev.TypeY? ==> r == Stay(s.(answer := s.answer.(y := ev.text)), None)
    ensures |s.questions| > 0 && s.feedback.None? && ev == SubmitForm ==>
      && r.Stay? && r.state == Submit(s, parse).state
      && (r.grade.Some? <==> Submit(s, parse).outcome.Graded?)
      && (r.grade.Some? ==> r.grade.value.correct == Submit(s, parse).outcome.correct)
    ensures |s.questions| > 0 && s.feedback.Some? && ev == NextClicked ==>
      && (r.Ended? <==> Next(s).GameEnded?)
      && (r.Stay? ==> r.state == Next(s).state && r.grade.None?)
    ensures |s.questions| > 0 && ev == BackClicked ==> r.Left?
    ensures !Offered(s, ev) ==> r == Stay(s, None)
  {
    if |s.questions| == 0 then Stay(s, None)
    else
      match ev
      case TypeX(text) =>
        if s.feedback.None? then Stay(s.(answer := s.answer.(x := text)), None) else Stay(s, None)
      case TypeY(text) =>
        if s.feedback.None? then Stay(s.(answer := s.answer.(y := text)), None) else Stay(s, None)
      case SubmitForm =>
        if s.feedback.None? then
          var sub := Submit(s, parse);
          match sub.outcome
          case Graded(ok) => Stay(sub.state, Some(Grade(s.index, ok)))
          case _ => Stay(sub.state, None)
        else Stay(s, None)
      case NextClicked =>
        if s.feedback.Some? then
          match Next(s)
          case NextQuestion(t) => Stay(t, None)
          case GameEnded(score) => Ended(score)
        else Stay(s, None)
      case BackClicked => Left
  }

  // ---------------------------------------------------------------------------
  // Whole sessions
  // ---------------------------------------------------------------------------

  datatype Exit = StillPlaying | Finished(finalScore: int) | BackToStart

  /** The last session state, how the screen was left, and every scored
      submission in order. */
  datatype Trace = Trace(last: Session, exit: Exit, grades: seq<Grade>)

  /** Feeds events one by one until the screen is left. */
  function Run(s: Session, evs: seq<Event>, parse: string -> Option<real>): Trace
    decreases |evs|
  {
    if |evs| == 0 then Trace(s, StillPlaying, [])
    else
      match Handle(s, evs[0], parse)
      case Ended(score) => Trace(s, Finished(score), [])
      case Left => Trace(s, BackToStart, [])
      case Stay(t, g) =>
        var rest := Run(t, evs[1..], parse);
        rest.(grades := (if g.Some? then [g.value] else []) + rest.grades)
  }

  function CorrectCount(gs: seq<Grade>): (n: nat)
    ensures n <= |gs|
  {
    if |gs| == 0 then 0 else (if gs[0].correct then 1 else 0) + CorrectCount(gs[1..])
  }

  /** No two scored submissions answer the same question, and later ones
      answer later questions. */
  predicate Ascending(gs: seq<Grade>) {
    forall i, j :: 0 <= i < j < |gs| ==> gs[i].index < gs[j].index
  }

  /** The score is the starting score plus 100 for every correct submission,
      and a finished game reports exactly that score. */
  lemma {:induction false} RunScore(s: Session, evs: seq<Event>, parse: string -> Option<real>)
    requires Valid(s)
    ensures var t := Run(s, evs, parse);
      && Valid(t.last)
      && t.last.score == s.score + PointsPerCorrect * CorrectCount(t.grades)
      && (t.exit.Finished? ==> t.exit.finalScore == t.last.score)
    decreases |evs|
  {
    if |evs| > 0 {
      match Handle(s, evs[0], parse)
      case Ended(score) =>
      case Left =>
      case Stay(t, g) =>
        RunScore(t, evs[1..], parse);
        var rest := Run(t, evs[1..], parse);
        var gs := (if g.Some? then [g.value] else []) + rest.grades;
        if g.Some? {
          assert gs[1..] == rest.grades;
        } else {
          assert gs == rest.grades;
        }
    }
  }

  /** Scored submissions answer strictly increasing question indices, all of
      them at or after the current one (strictly after it once the current
      one has been answered), and all inside the list. */
  lemma {:induction false} RunGradesAscending(s: Session, evs: seq<Event>, parse: string -> Option<real>)
    requires Valid(s)
    ensures var gs := Run(s, evs, parse).grades;
      && Ascending(gs)
      && (forall i :: 0 <= i < |gs| ==> s.index <= gs[i].index < |s.questions|)
      && (s.feedback.Some? ==> forall i :: 0 <= i < |gs| ==> s.index < gs[i].index)
    decreases |evs|
  {
    if |evs| > 0 {
      match Handle(s, evs[0], parse)
      case Ended(score) =>
      case Left =>
      case Stay(t, g) =>
        RunGradesAscending(t, evs[1..], parse);
        var rest := Run(t, evs[1..], parse).grades;
        if g.Some? {
          var gs := [g.value] + rest;
          assert forall i :: 1 <= i < |gs| ==> gs[i] == rest[i - 1];
        }
    }
  }

  lemma {:induction false} AscendingLength(gs: seq<Grade>, lo: int, hi: int)
    requires Ascending(gs)
    requires forall i :: 0 <= i < |gs| ==> lo <= gs[i].index < hi
    ensures |gs| <= hi - lo || |gs| == 0
    decreases |gs|
  {
    if |gs| > 1 {
      AscendingLength(gs[1..], gs[0].index + 1, hi);
    }
  }

  /** A whole session from the first question: the score is 100 times the
      number of correct submissions, at most one per question, so it never
      exceeds 100 times the number of questions; it never decreases. */
  lemma SessionScore(questions: seq<Question>, evs: seq<Event>, parse: string -> Option<real>)
    ensures var t := Run(Begin(questions), evs, parse);
      && t.last.score == PointsPerCorrect * CorrectCount(t.grades)
      && 0 <= t.last.score <= PointsPerCorrect * |questions|
      && Ascending(t.grades)
      && (t.exit.Finished? ==> t.exit.finalScore == t.last.score)
  {
    var s := Begin(questions);
    RunScore(s, evs, parse);
    RunGradesAscending(s, evs, parse);
    var gs := Run(s, evs, parse).grades;
    AscendingLength(gs, 0, |questions|);
  }
}

=== FILE: step_by_step.dfy ===
/** The worked substitution-method panel shown after a wrong answer
    (components/StepByStepSolution.tsx). Its restatement lines use a
    formatter that is character for character the quiz screen's, so the
    model uses `GameScreen.FormatEquation` for them. The last two steps echo
    the stored solution; nothing is solved here. */
module StepByStepSolution {
  import opened Wrappers
  import opened Types
  import Text
  import GameScreen

  /** The value a printed `<sign> <m>` stands for. */
  function SignedValue(sign: char, m: nat): int {
    if sign == '-' then -(m as int) else m
  }

  /** The sign before `|b1|y` once x is isolated: the y term has moved across
      the equals sign, so it is `-` for a positive `b1` and `+` otherwise
      (`+ 0y` for a zero one). */
  function IsolateSign(b: int): (sign: char)
    ensures sign == '-' || sign == '+'
    ensures SignedValue(sign, Abs(b)) == -b
    ensures sign == GameScreen.YSign(-b)
  {
    if b > 0 then '-' else '+'
  }

  /** The sign before `|b2|y` in the substituted equation: `+` only for a
      positive `b2`. It stands for `b2` itself, but differs from the
      formatter's sign exactly when `b2 = 0` (`- 0y` here, `+ 0y` there). */
  function SubstituteSign(b: int): (sign: char)
    ensures sign == '-' || sign == '+'
    ensures SignedValue(sign, Abs(b)) == b
    ensures sign == GameScreen.YSign(b) <==> b != 0
  {
    if b > 0 then '+' else '-'
  }

  /** `c1 ∓ |b1|y`, the right-hand side after isolating x. Coefficients are
      printed raw here: `1y`, never `y`. */
  function IsolatedRhs(eq1: Equation): string {
    Text.IntToString(eq1.c) + " " + [IsolateSign(eq1.b)] + " " + Text.NatToString(Abs(eq1.b)) + "y"
  }

  /** Step 2, first line: `a1x = c1 ∓ |b1|y` (`1x`, never `x`). */
  function IsolateLine(eq1: Equation): string {
    Text.IntToString(eq1.a) + "x = " + IsolatedRhs(eq1)
  }

  /** Step 2, second line: `x = (c1 ∓ |b1|y) / a1`. The divisor is printed
      as it is, zero included. */
  function DivideLine(eq1: Equation): (line: string)
    ensures eq1.a == 0 ==> |line| >= 4 && line[|line| - 4..] == " / 0"
  {
    "x = (" + IsolatedRhs(eq1) + ") / " + Text.IntToString(eq1.a)
  }

  /** Step 3: `a2 * ((c1 ∓ |b1|y) / a1) ± |b2|y = c2`. */
  function SubstituteLine(eq1: Equation, eq2: Equation): string {
    Text.IntToString(eq2.a) + " * ((" + IsolatedRhs(eq1) + ") / " + Text.IntToString(eq1.a) + ") "
      + [SubstituteSign(eq2.b)] + " " + Text.NatToString(Abs(eq2.b)) + "y = " + Text.IntToString(eq2.c)
  }

  /** The five steps' variable text. */
  datatype Steps = Steps(
    system1: string,
    system2: string,
    isolate: string,
    divide: string,
    substitute: string,
    yResult: string,
    xResult: string)

  /** The whole panel. `show` renders a stored solution value (JavaScript's
      number-to-text conversion, not modelled). */
  function Narrate(q: Question, show: real -> string): Steps {
    Steps(
      GameScreen.FormatEquation(q.eq1),
      GameScreen.FormatEquation(q.eq2),
      IsolateLine(q.eq1),
      DivideLine(q.eq1),
      SubstituteLine(q.eq1, q.eq2),
      "y = " + show(q.solution.y),
      "x = " + show(q.solution.x))
  }

  // ---------------------------------------------------------------------------
  // Reading the printed lines back
  // ---------------------------------------------------------------------------

  /** Reads a printed `<sign> <digits>` back to the coefficient it stands for.
      `zeroSign` is the only sign accepted before a zero magnitude: `+` where
      the panel writes `+ 0y`, `-` where it writes `- 0y`. */
  function DecodeSigned(sign: string, digits: string, zeroSign: string): Option<int> {
    match Text.ParseNat(digits)
    case None => None
    case Some(m) =>
      if m == 0 then (if sign == zeroSign then Some(0) else None)
      else if sign == "+" then Some(m as int)
      else if sign == "-" then Some(-(m as int))
      else None
  }

  /** The moved y term reads back to `-b`, with zero written `+ 0`. */
  lemma MovedTermRoundTrip(b: int)
    ensures DecodeSigned([IsolateSign(b)], Text.NatToString(Abs(b)), "+") == Some(-b)
  {
    Text.NatRoundTrip(Abs(b));
  }

  /** The substituted y term reads back to `b`, with zero written `- 0`. */
  lemma AddedTermRoundTrip(b: int)
    ensures DecodeSigned([SubstituteSign(b)], Text.NatToString(Abs(b)), "-") == Some(b)
  {
    Text.NatRoundTrip(Abs(b));
  }

  /** An isolated-x line read back: `a·x = c + k·y`. */
  datatype Isolation = Isolation(a: int, c: int, k: int)

  function DecodeIsolation(s: string): Option<Isolation> {
    var t := Text.Split(s, ' ');
    if |t| != 5 || t[1] != "=" then None
    else
      match (Text.StripSuffix(t[0], "x"), Text.StripSuffix(t[4], "y"))
      case (Some(ta), Some(tm)) =>
        (match (Text.ParseInt(ta), Text.ParseInt(t[2]), DecodeSigned(t[3], tm, "+"))
         case (Some(a), Some(c), Some(k)) => Some(Isolation(a, c, k))
         case _ => None)
      case _ => None
  }

  lemma IsolateTokens(eq: Equation)
    ensures IsolateLine(eq) == Text.Join([Text.IntToString(eq.a) + "x", "=", Text.IntToString(eq.c),
                                          [IsolateSign(eq.b)], Text.NatToString(Abs(eq.b)) + "y"], ' ')
  {
    var ts := [Text.IntToString(eq.a) + "x", "=", Text.IntToString(eq.c),
               [IsolateSign(eq.b)], Text.NatToString(Abs(eq.b)) + "y"];
    Text.JoinFrom(ts, ' ', 3);
    Text.JoinFrom(ts, ' ', 2);
    Text.JoinFrom(ts, ' ', 1);
  }

  /** The isolate line reads back as `a1·x = c1 - b1·y`, for every `b1`
      including zero, and with the coefficients printed raw (`1x`, `1y`). */
  lemma {:induction false} IsolateRoundTrip(eq: Equation)
    ensures DecodeIsolation(IsolateLine(eq)) == Some(Isolation(eq.a, eq.c, -eq.b))
  {
    var u := Text.IntToString(eq.a);
    var v := Text.NatToString(Abs(eq.b));
    var ts := [u + "x", "=", Text.IntToString(eq.c), [IsolateSign(eq.b)], v + "y"];
    IsolateTokens(eq);
    GameScreen.IntTextHasNoSpace(eq.a);
    GameScreen.IntTextHasNoSpace(eq.c);
    GameScreen.NatTextHasNoSpace(Abs(eq.b));
    Text.SplitJoin(ts, ' ');
    Text.IntRoundTrip(eq.a);
    Text.IntRoundTrip(eq.c);
    MovedTermRoundTrip(eq.b);
  }

  /** The divide line read back: `x = (c + k·y) / a`. */
  datatype Division = Division(c: int, k: int, a: int)

  function DecodeDivision(s: string): Option<Division> {
    var t := Text.Split(s, ' ');
    if |t| != 7 || t[0] != "x" || t[1] != "=" || t[5] != "/" then None
    else
      match (Text.StripPrefix("(", t[2]), Text.StripSuffix(t[4], "y)"))
      case (Some(tc), Some(tm)) =>
        (match (Text.ParseInt(tc), DecodeSigned(t[3], tm, "+"), Text.ParseInt(t[6]))
         case (Some(c), Some(k), Some(a)) => Some(Division(c, k, a))
         case _ => None)
      case _ => None
  }

  function DivideTokens(eq: Equation): seq<string> {
    ["x", "=", "(" + Text.IntToString(eq.c), [IsolateSign(eq.b)],
     Text.NatToString(Abs(eq.b)) + "y)", "/", Text.IntToString(eq.a)]
  }

  lemma JoinSeven(ts: seq<string>)
    requires |ts| == 7
    ensures Text.Join(ts, ' ')
         == ts[0] + " " + (ts[1] + " " + (ts[2] + " " + (ts[3] + " " + (ts[4] + " " + (ts[5] + " " + ts[6])))))
  {
    Text.JoinFrom(ts, ' ', 5);
    assert ts[6..] == [ts[6]];
    Text.JoinFrom(ts, ' ', 4);
    Text.JoinFrom(ts, ' ', 3);
    Text.JoinFrom(ts, ' ', 2);
    Text.JoinFrom(ts, ' ', 1);
    Text.JoinFrom(ts, ' ', 0);
    assert ts[0..] == ts;
  }

  lemma DivideLineTokens(eq: Equation)
    ensures DivideLine(eq) == Text.Join(DivideTokens(eq), ' ')
  {
    JoinSeven(DivideTokens(eq));
  }

  lemma DivideTokensHaveNoSpace(eq: Equation)
    ensures forall i :: 0 <= i < |DivideTokens(eq)| ==> ' ' !in DivideTokens(eq)[i]
  {
    GameScreen.IntTextHasNoSpace(eq.a);
    GameScreen.IntTextHasNoSpace(eq.c);
    GameScreen.NatTextHasNoSpace(Abs(eq.b));
  }

  /** The divide line reads back as `x = (c1 - b1·y) / a1`: the same
      right-hand side as the isolate line, over the divisor `a1` exactly as
      given, zero included. */
  lemma {:induction false} DivideRoundTrip(eq: Equation)
    ensures DecodeDivision(DivideLine(eq)) == Some(Division(eq.c, -eq.b, eq.a))
  {
    DivideLineTokens(eq);
    DivideTokensHaveNoSpace(eq);
    Text.SplitJoin(DivideTokens(eq), ' ');
    Text.IntRoundTrip(eq.a);
    Text.IntRoundTrip(eq.c);
    MovedTermRoundTrip(eq.b);
  }

  /** The substitution line read back:
      `a2 * ((c1 + k1·y) / a1) + k2·y = c2`. */
  datatype Substitution = Substitution(a2: int, c1: int, k1: int, a1: int, k2: int, c2: int)

  function DecodeSubstitution(s: string): Option<Substitution> {
    DecodeSubstitutionTokens(Text.Split(s, ' '))
  }

  function DecodeSubstitutionTokens(t: seq<string>): Option<Substitution> {
    if |t| != 11 || t[1] != "*" || t[5] != "/" || t[9] != "=" then None
    else
      match (Text.StripPrefix("((", t[2]), Text.StripSuffix(t[4], "y)"),
             Text.StripSuffix(t[6], ")"), Text.StripSuffix(t[8], "y"))
      case (Some(tc1), Some(tm1), Some(ta1), Some(tm2)) =>
        (match (Text.ParseInt(t[0]), Text.ParseInt(tc1), DecodeSigned(t[3], tm1, "+"),
                Text.ParseInt(ta1), DecodeSigned(t[7], tm2, "-"), Text.ParseInt(t[10]))
         case (Some(a2), Some(c1), Some(k1), Some(a1), Some(k2), Some(c2)) =>
           Some(Substitution(a2, c1, k1, a1, k2, c2))
         case _ => None)
      case _ => None
  }

  function SubstituteTokens(eq1: Equation, eq2: Equation): seq<string> {
    [Text.IntToString(eq2.a), "*", "((" + Text.IntToString(eq1.c), [IsolateSign(eq1.b)],
     Text.NatToString(Abs(eq1.b)) + "y)", "/", Text.IntToString(eq1.a) + ")",
     [SubstituteSign(eq2.b)], Text.NatToString(Abs(eq2.b)) + "y", "=", Text.IntToString(eq2.c)]
  }

  lemma JoinEleven(ts: seq<string>)
    requires |ts| == 11
    ensures Text.Join(ts, ' ')
         == ts[0] + " " + (ts[1] + " " + (ts[2] + " " + (ts[3] + " " + (ts[4] + " " + (ts[5] + " " +
            (ts[6] + " " + (ts[7] + " " + (ts[8] + " " + (ts[9] + " " + ts[10])))))))))
  {
    Text.JoinFrom(ts, ' ', 9);
    assert ts[10..] == [ts[10]];
    Text.JoinFrom(ts, ' ', 8);
    Text.JoinFrom(ts, ' ', 7);
    Text.JoinFrom(ts, ' ', 6);
    Text.JoinFrom(ts, ' ', 5);
    Text.JoinFrom(ts, ' ', 4);
    Text.JoinFrom(ts, ' ', 3);
    Text.JoinFrom(ts, ' ', 2);
    Text.JoinFrom(ts, ' ', 1);
    Text.JoinFrom(ts, ' ', 0);
    assert ts[0..] == ts;
  }

  lemma SubstituteLineTokens(eq1: Equation, eq2: Equation)
    ensures SubstituteLine(eq1, eq2) == Text.Join(SubstituteTokens(eq1, eq2), ' ')
  {
    JoinEleven(SubstituteTokens(eq1, eq2));
    SubstituteRegroup(Text.IntToString(eq2.a), Text.IntToString(eq1.c), [IsolateSign(eq1.b)],
                      Text.NatToString(Abs(eq1.b)), Text.IntToString(eq1.a), [SubstituteSign(eq2.b)],
                      Text.NatToString(Abs(eq2.b)), Text.IntToString(eq2.c));
  }

  /** The step 3 line, regrouped token by token. */
  lemma SubstituteRegroup(a2: string, c1: string, s1: string, m1: string, a1: string, s2: string, m2: string, c2: string)
    ensures a2 + " " + ("*" + " " + (("((" + c1) + " " + (s1 + " " + ((m1 + "y)") + " " + ("/" + " " +
            ((a1 + ")") + " " + (s2 + " " + ((m2 + "y") + " " + ("=" + " " + c2)))))))))
         == a2 + " * ((" + (c1 + " " + s1 + " " + m1 + "y") + ") / " + a1 + ") " + s2 + " " + m2 + "y = " + c2
  {
    var tail := m2 + "y = " + c2;
    RegroupTail(m2, c2);
    var mid := a1 + ") " + s2 + " " + tail;
    RegroupMid(a1, s2, tail);
    var rhs := m1 + "y) / " + mid;
    RegroupRhs(m1, mid);
    RegroupHead(a2, c1, s1, m1, rhs);
    assert a2 + " * ((" + (c1 + " " + s1 + " " + m1 + "y") + ") / " + a1 + ") " + s2 + " " + m2 + "y = " + c2
        == a2 + " * ((" + c1 + " " + s1 + " " + (m1 + "y) / " + (a1 + ") " + s2 + " " + (m2 + "y = " + c2)));
  }

  lemma RegroupTail(m2: string, c2: string)
    ensures (m2 + "y") + " " + ("=" + " " + c2) == m2 + "y = " + c2
  {
  }

  lemma RegroupMid(a1: string, s2: string, tail: string)
    ensures (a1 + ")") + " " + (s2 + " " + tail) == a1 + ") " + s2 + " " + tail
  {
  }

  lemma RegroupRhs(m1: string, mid: string)
    ensures (m1 + "y)") + " " + ("/" + " " + mid) == m1 + "y) / " + mid
  {
  }

  lemma RegroupHead(a2: string, c1: string, s1: string, m1: string, rhs: string)
    ensures a2 + " " + ("*" + " " + (("((" + c1) + " " + (s1 + " " + rhs)))
         == a2 + " * ((" + c1 + " " + s1 + " " + rhs
  {
  }

  lemma SubstituteTokensHaveNoSpace(eq1: Equation, eq2: Equation)
    ensures forall i :: 0 <= i < |SubstituteTokens(eq1, eq2)| ==> ' ' !in SubstituteTokens(eq1, eq2)[i]
  {
    GameScreen.IntTextHasNoSpace(eq1.a);
    GameScreen.IntTextHasNoSpace(eq1.c);
    GameScreen.IntTextHasNoSpace(eq2.a);
    GameScreen.IntTextHasNoSpace(eq2.c);
    GameScreen.NatTextHasNoSpace(Abs(eq1.b));
    GameScreen.NatTextHasNoSpace(Abs(eq2.b));
  }

  lemma SubstituteTokensRoundTrip(eq1: Equation, eq2: Equation)
    ensures DecodeSubstitutionTokens(SubstituteTokens(eq1, eq2))
         == Some(Substitution(eq2.a, eq1.c, -eq1.b, eq1.a, eq2.b, eq2.c))
  {
    var c1, m1, a1 := Text.IntToString(eq1.c), Text.NatToString(Abs(eq1.b)), Text.IntToString(eq1.a);
    var m2 := Text.NatToString(Abs(eq2.b));
    Text.StripPrefixOf("((", c1);
    Text.StripSuffixOf(m1, "y)");
    Text.StripSuffixOf(a1, ")");
    Text.StripSuffixOf(m2, "y");
    Text.IntRoundTrip(eq1.a);
    Text.IntRoundTrip(eq1.c);
    Text.IntRoundTrip(eq2.a);
    Text.IntRoundTrip(eq2.c);
    MovedTermRoundTrip(eq1.b);
    AddedTermRoundTrip(eq2.b);
  }

  /** The substitution line reads back as
      `a2 * ((c1 - b1·y) / a1) + b2·y = c2`: equation II with x replaced by
      the divide line's expression, its y term signed `+` only for a positive
      `b2` (so `- 0y` for zero). */
  lemma {:induction false} SubstituteRoundTrip(eq1: Equation, eq2: Equation)
    ensures DecodeSubstitution(SubstituteLine(eq1, eq2))
         == Some(Substitution(eq2.a, eq1.c, -eq1.b, eq1.a, eq2.b, eq2.c))
  {
    SubstituteLineTokens(eq1, eq2);
    SubstituteTokensHaveNoSpace(eq1, eq2);
    Text.SplitJoin(SubstituteTokens(eq1, eq2), ' ');
    SubstituteTokensRoundTrip(eq1, eq2);
  }


  /** The point (x, y) lies on the printed line. */
  predicate Holds(iso: Isolation, x: real, y: real) {
    iso.a as real * x == iso.c as real + iso.k as real * y
  }

  /** Isolating x is an exact rearrangement: a point satisfies equation I iff
      it satisfies the line the panel prints. */
  lemma IsolationIsEquivalent(eq: Equation, x: real, y: real)
    ensures DecodeIsolation(IsolateLine(eq)).Some?
    ensures Holds(DecodeIsolation(IsolateLine(eq)).value, x, y)
        <==> eq.a as real * x + eq.b as real * y == eq.c as real
  {
    IsolateRoundTrip(eq);
    MovingTermAcross(eq, x, y);
  }

  lemma MovingTermAcross(eq: Equation, x: real, y: real)
    ensures Holds(Isolation(eq.a, eq.c, -eq.b), x, y) <==> eq.a as real * x + eq.b as real * y == eq.c as real
  {
  }

  /** The first two steps show the equations exactly as the quiz screen does. */
  lemma RestatementReadsBack(q: Question, show: real -> string)
    ensures GameScreen.DecodeEquation(Narrate(q, show).system1) == Some(q.eq1)
    ensures GameScreen.DecodeEquation(Narrate(q, show).system2) == Some(q.eq2)
  {
    GameScreen.FormatRoundTrip(q.eq1);
    GameScreen.FormatRoundTrip(q.eq2);
  }

  /** The results are the stored solution, not derived from the equations:
      questions that share a solution print the same results whatever their
      equations, and questions that share equations print the same working
      whatever their stored solution. */
  /** Steps 4 and 5 show the stored y and x, in that order: with a
      rendering that tells values apart, two panels print the same y result
      exactly when the stored y values agree, and likewise for x. */
  lemma {:induction false} ResultsShowSolution(q1: Question, q2: Question, show: real -> string)
    requires forall r1, r2 :: show(r1) == show(r2) ==> r1 == r2
    ensures Narrate(q1, show).yResult == Narrate(q2, show).yResult <==> q1.solution.y == q2.solution.y
    ensures Narrate(q1, show).xResult == Narrate(q2, show).xResult <==> q1.solution.x == q2.solution.x
  {
    var y1, y2 := show(q1.solution.y), show(q2.solution.y);
    assert y1 == ("y = " + y1)[4..] && y2 == ("y = " + y2)[4..];
    var x1, x2 := show(q1.solution.x), show(q2.solution.x);
    assert x1 == ("x = " + x1)[4..] && x2 == ("x = " + x2)[4..];
  }

  lemma SolutionIsEchoed(q1: Question, q2: Question, show: real -> string)
    ensures q1.solution == q2.solution ==>
      Narrate(q1, show).yResult == Narrate(q2, show).yResult
      && Narrate(q1, show).xResult == Narrate(q2, show).xResult
    ensures q1.eq1 == q2.eq1 && q1.eq2 == q2.eq2 ==>
      Narrate(q1, show).(yResult := "", xResult := "") == Narrate(q2, show).(yResult := "", xResult := "")
  {
  }
}

=== FILE: text.dfy ===
/** Decimal rendering of integers, as JavaScript template literals print them
    (`${n}` for an integer-valued number), and the token splitting used to
    read a rendered equation back. */
module Text {
  import opened Wrappers

  predicate IsDigit(c: char) {
    '0' <= c <= '9'
  }

  predicate AllDigits(s: string) {
    forall i :: 0 <= i < |s| ==> IsDigit(s[i])
  }

  function DigitChar(d: nat): (c: char)
    requires d < 10
    ensures IsDigit(c)
  {
    ('0' as int + d) as char
  }

  function DigitValue(c: char): (d: nat)
    requires IsDigit(c)
    ensures d < 10
    ensures DigitChar(d) == c
  {
    c as int - '0' as int
  }

  /** Decimal digits of `n`, most significant first, without leading zeros. */
  function NatToString(n: nat): (s: string)
    ensures |s| > 0 && AllDigits(s)
    ensures s[0] == '0' <==> n == 0
    ensures n == 0 ==> s == "0"
    decreases n
  {
    if n < 10 then [DigitChar(n)] else NatToString(n / 10) + [DigitChar(n % 10)]
  }

  /** `${n}` for an integer `n`: a minus sign for negatives, then the digits. */
  function IntToString(n: int): (s: string)
    ensures |s| > 0
    ensures forall i :: 0 <= i < |s| ==> IsDigit(s[i]) || (i == 0 && s[i] == '-')
    ensures s[0] == '-' <==> n < 0
    ensures n < 0 ==> |s| > 1
  {
    if n < 0 then "-" + NatToString(-n) else NatToString(n)
  }

  /** The value of a string of digits read in base ten. */
  function DigitsValue(s: string): nat
    requires AllDigits(s)
    decreases |s|
  {
    if |s| == 0 then 0 else DigitsValue(s[..|s| - 1]) * 10 + DigitValue(s[|s| - 1])
  }

  /** Reads a canonical natural number: digits only, no leading zero. */
  function ParseNat(s: string): Option<nat> {
    if |s| == 0 || !AllDigits(s) || (s[0] == '0' && |s| > 1) then None
    else Some(DigitsValue(s))
  }

  /** Reads a canonical integer: an optional minus sign before a non-zero
      natural number. */
  function ParseInt(s: string): Option<int> {
    if |s| > 0 && s[0] == '-' then
      match ParseNat(s[1..])
      case Some(m) => if m == 0 then None else Some(-(m as int))
      case None => None
    else
      match ParseNat(s)
      case Some(m) => Some(m as int)
      case None => None
  }

  lemma {:induction false} DigitsValueOfNatToString(n: nat)
    ensures DigitsValue(NatToString(n)) == n
    decreases n
  {
    var s := NatToString(n);
    if n < 10 {
      assert s[..|s| - 1] == [];
    } else {
      var t := NatToString(n / 10);
      assert s == t + [DigitChar(n % 10)];
      assert s[..|s| - 1] == t;
      DigitsValueOfNatToString(n / 10);
    }
  }

  /** Reading back the rendered digits gives the number. */
  lemma NatRoundTrip(n: nat)
    ensures ParseNat(NatToString(n)) == Some(n)
  {
    DigitsValueOfNatToString(n);
  }

  /** Reading back a rendered integer gives the integer. */
  lemma IntRoundTrip(n: int)
    ensures ParseInt(IntToString(n)) == Some(n)
  {
    if n < 0 {
      var s := IntToString(n);
      assert s[1..] == NatToString(-n);
      NatRoundTrip(-n);
    } else {
      NatRoundTrip(n);
    }
  }

  /** Tokens glued with one separator between neighbours. */
  function Join(tokens: seq<string>, sep: char): string
    decreases |tokens|
  {
    if |tokens| == 0 then ""
    else if |tokens| == 1 then tokens[0]
    else tokens[0] + [sep] + Join(tokens[1..], sep)
  }

  /** The maximal separator-free pieces of `s`, empty ones included. This is
      not an operation of the game: the decoders use it to read printed text
      back into tokens. */
  function Split(s: string, sep: char): (r: seq<string>)
    ensures |r| > 0
    decreases |s|
  {
    if |s| == 0 then [""]
    else if s[0] == sep then [""] + Split(s[1..], sep)
    else
      var rest := Split(s[1..], sep);
      [[s[0]] + rest[0]] + rest[1..]
  }

  lemma {:induction false} SplitFree(t: string, sep: char)
    requires sep !in t
    ensures Split(t, sep) == [t]
    decreases |t|
  {
    if |t| > 0 {
      SplitFree(t[1..], sep);
      assert [t[0]] + t[1..] == t;
    }
  }

  lemma {:induction false} SplitHead(t: string, sep: char, rest: string)
    requires sep !in t
    ensures Split(t + [sep] + rest, sep) == [t] + Split(rest, sep)
    decreases |t|
  {
    var s := t + [sep] + rest;
    if |t| == 0 {
      assert s[1..] == rest;
    } else {
      assert s[1..] == t[1..] + [sep] + rest;
      SplitHead(t[1..], sep, rest);
      assert [t[0]] + t[1..] == t;
    }
  }

  /** Splitting undoes joining when no token holds the separator. */
  lemma {:induction false} SplitJoin(tokens: seq<string>, sep: char)
    requires |tokens| > 0
    requires forall i :: 0 <= i < |tokens| ==> sep !in tokens[i]
    ensures Split(Join(tokens, sep), sep) == tokens
    decreases |tokens|
  {
    if |tokens| == 1 {
      SplitFree(tokens[0], sep);
    } else {
      SplitJoin(tokens[1..], sep);
      SplitHead(tokens[0], sep, Join(tokens[1..], sep));
      assert [tokens[0]] + tokens[1..] == tokens;
    }
  }

  /** One step of `Join` on a suffix of the token list. */
  lemma JoinFrom(tokens: seq<string>, sep: char, i: nat)
    requires i + 1 < |tokens|
    ensures Join(tokens[i..], sep) == tokens[i] + [sep] + Join(tokens[i + 1..], sep)
  {
    assert tokens[i..][1..] == tokens[i + 1..];
  }

  /** `t` without the leading `p`, if it starts with `p`. */
  function StripPrefix(p: string, t: string): (r: Option<string>)
    ensures r.Some? <==> |p| <= |t| && t[..|p|] == p
    ensures r.Some? ==> p + r.value == t
  {
    if |p| <= |t| && t[..|p|] == p then
      assert p + t[|p|..] == t;
      Some(t[|p|..])
    else None
  }

  /** `t` without the trailing `q`, if it ends with `q`. */
  function StripSuffix(t: string, q: string): (r: Option<string>)
    ensures r.Some? <==> |q| <= |t| && t[|t| - |q|..] == q
    ensures r.Some? ==> r.value + q == t
  {
    if |q| <= |t| && t[|t| - |q|..] == q then
      assert t[..|t| - |q|] + q == t;
      Some(t[..|t| - |q|])
    else None
  }

  lemma StripPrefixOf(p: string, u: string)
    ensures StripPrefix(p, p + u) == Some(u)
  {
    assert (p + u)[..|p|] == p;
    assert (p + u)[|p|..] == u;
  }

  lemma StripSuffixOf(u: string, q: string)
    ensures StripSuffix(u + q, q) == Some(u)
  {
    assert (u + q)[|u|..] == q;
    assert (u + q)[..|u|] == u;
  }

  /** True when `pat` occurs in `s` starting at position `k`. */
  predicate OccursAt(s: string, pat: string, k: nat) {
    k + |pat| <= |s| && s[k..k + |pat|] == pat
  }

  /** `s.indexOf(pat, from)`: the first occurrence at or after `from`. */
  function IndexOfFrom(s: string, pat: string, from: nat): (r: Option<nat>)
    ensures r.Some? ==> from <= r.value && OccursAt(s, pat, r.value)
    ensures r.Some? ==> forall k :: from <= k < r.value ==> !OccursAt(s, pat, k)
    ensures r.None? ==> forall k :: from <= k ==> !OccursAt(s, pat, k)
    decreases |s| - from
  {
    if from + |pat| > |s| then None
    else if s[from..from + |pat|] == pat then Some(from)
    else IndexOfFrom(s, pat, from + 1)
  }

  /** `s.replace(pat, rep)` with a string pattern: JavaScript replaces only
      the first occurrence. */
  function ReplaceFirst(s: string, pat: string, rep: string): (r: string)
    ensures (forall k :: !OccursAt(s, pat, k)) ==> r == s
  {
    match IndexOfFrom(s, pat, 0)
    case None => s
    case Some(k) => s[..k] + rep + s[k + |pat|..]
  }
}

=== FILE: types.dfy ===
/** The records shared by every component of the game (types.ts). */
module Types {

  /** `a·x + b·y = c`. `types.ts` declares the coefficients as JavaScript
      numbers; this model restricts them to unbounded integers, the kind the
      formatters are shown to print exactly. */
  datatype Equation = Equation(a: int, b: int, c: int)

  /** The stored answer of a question: the intersection of its two lines. */
  datatype Solution = Solution(x: real, y: real)

  /** One quiz item: the pair of equations and the solution the question
      bank supplies alongside them. */
  datatype Question = Question(id: int, context: string, eq1: Equation, eq2: Equation, solution: Solution)

  /** The top-level screen the application is showing. */
  datatype GameState = Start | Playing | GameOver

  /** `Math.abs` on an integer coefficient. */
  function Abs(n: int): (m: nat)
    ensures m == n || m == -n
  {
    if n < 0 then -n else n
  }

  /** `Math.abs` on a real-valued difference. */
  function RealAbs(r: real): (m: real)
    ensures 0.0 <= m
    ensures m == r || m == -r
  {
    if r < 0.0 then -r else r
  }

  /** The stored solution lies on the equation's line. The question bank is
      trusted to supply such solutions; the game never checks it. */
  predicate OnLine(eq: Equation, sol: Solution) {
    eq.a as real * sol.x + eq.b as real * sol.y == eq.c as real
  }
}

=== FILE: wrappers.dfy ===
/** Optional values, used for parsed input, sampled points and decoders. */
module Wrappers {

  /** A value that may be absent: `None` stands for JavaScript's `null`,
      `NaN` or `undefined`, depending on the place it is used. */
  datatype Option<+T> = None | Some(value: T)
}
